=== FILE: README.md ===
# Exhaustive linear regression: the discrete layer

This project is a Dafny model of the combinatorial core of
`ExhaustiveLinearRegression` from the `exhbma` package. That estimator runs
Bayesian model averaging over every subset of the features. The model covers
the following parts:

- **Candidate enumeration** (`_generate_indicator`). Every 0/1 feature
  indicator of length n is listed in `itertools.product` order, each tuple
  reversed. The null (all-zero) indicator is optionally dropped.
- **Indicator-to-index mapping** (`_transform_indicator_to_model_index`). The
  indicator's digit string is reversed, parsed with `int(s, 2)`, and one is
  subtracted.
- **Threshold selection** (`select_variables`). The inclusive `>=` is applied
  to the per-feature posterior probabilities.
- **Coefficient scatter** (the `np_coefficient` matrix in
  `_calculate_marginal_linear_model`). Each model's compact coefficients are
  written into a full-width row, with 0 at inactive features.
- **Prediction** (`predict`, `_predict_by_select`, `_predict_by_full` and the
  `PredictMode` enum). This includes the mode check, the Python list
  subscript, boolean column selection and `np.dot` with its shape error.
- **Model prior** (`_fixed_alpha_prior` and `_alpha_marginalized_value`). The
  prior depends only on the indicator's length and its number of ones.
- **Fit loop** (`fit`). It builds one `ModelInfo` per enumerated indicator and
  assembles the fitted state that prediction reads.

The modules are:

- `Results`: the Python exceptions as an `Error` datatype, plus a
  failure-compatible `Result`.
- `Indicators`: indicators, popcount, binary value and expansion, and the
  enumeration itself.
- `Enumeration`: what the enumeration order guarantees.
- `ModelIndex`: the index transform and its round trips.
- `Selection`: thresholding.
- `Coefficients`: gather and scatter between compact and full-width
  coefficient vectors.
- `Matrices`: `X[:, mask]` and `np.dot`.
- `ModelPrior`: the two log-priors.
- `ExhaustiveSearch`: the fitted state, `fit`, and the prediction modes.

Posteriors, coefficients and design-matrix entries are exact `real`s.

Some parts become parameters of the model:

- `np.log` and `scipy.special.gammaln` are uninterpreted functions (`Special`).
- The grid integrations are uninterpreted functions (`Numerics`). This covers
  `integrate_log_values_in_square`, `LinearRegression`, and the signed
  `logsumexp` averages.

Every property about these parameters therefore holds for any such functions.

Two behaviours of the code are worth stating plainly:

- **Selecting nothing raises an error.** When no posterior reaches the
  threshold, the null indicator maps to index -1. `self.models_[-1]` is the
  last model, which uses every feature. `np.dot` of the resulting (m, 0)
  column selection with that model's n coefficients raises. This is
  `ExhaustiveSearch.SelectPredictionNullFails`.
- **Models keep compact coefficients.** `ModelInfo.coefficient` holds one
  value per active column. The full-width form exists only as the rows of the
  coefficient matrix built at lines 301-303.

## Model

| member | source | states |
|---|---|---|
| Indicators.Product | exhbma/exhaustive_search.py:367 | `itertools.product([0, 1], repeat=n)` has 2^n tuples, each of length n |
| Indicators.GenerateIndicators | exhbma/exhaustive_search.py:347-368 | The enumeration has 2^n entries, or 2^n - 1 when the null indicator is excluded (the default); every entry has length n |
| Indicators.ExpandValue | exhbma/exhaustive_search.py:367 | Reading the n-bit expansion of k (k < 2^n) as a binary number gives back k |
| Indicators.ValueExpand | exhbma/exhaustive_search.py:367 | Expanding an indicator's binary value to its own length gives back the indicator |
| Indicators.BinaryValueInjective | exhbma/exhaustive_search.py:375-376 | Equal-length indicators with the same binary value are equal |
| Indicators.PopcountZero | exhbma/exhaustive_search.py:326 | The number of active features is 0 exactly when the indicator is all zero |
| Indicators.PopcountFull | exhbma/exhaustive_search.py:341 | The number of active features equals the length exactly when every feature is active |
| Enumeration.ProductValue | exhbma/exhaustive_search.py:367 | Row k of `product([0, 1], repeat=n)`, reversed, has binary value k |
| Enumeration.GenerateEntry | exhbma/exhaustive_search.py:366-368 | Entry k of the unfiltered enumeration is the n-bit expansion of k, feature 0 least significant |
| Enumeration.ExcludeNullDropsFirst | exhbma/exhaustive_search.py:366-368 | Excluding the null model drops exactly the first entry, and that entry is all zero |
| Enumeration.GenerateExcludedEntry | exhbma/exhaustive_search.py:366-368 | Entry i of the filtered enumeration is the expansion of i + 1 |
| Enumeration.GenerateValue | exhbma/exhaustive_search.py:366-368 | The entry at position i has binary value i, or i + 1 once the null indicator is excluded |
| Enumeration.GenerateDistinct | exhbma/exhaustive_search.py:367 | Entries at different positions of the enumeration are different indicators |
| Enumeration.GenerateExcludedNonNull | exhbma/exhaustive_search.py:366-368 | No entry of the filtered enumeration is all zero; each uses between 1 and n features |
| Enumeration.GenerateComplete | exhbma/exhaustive_search.py:367 | Every indicator of length n appears in the unfiltered enumeration, at the position given by its binary value |
| Enumeration.GenerateExcludedAt | exhbma/exhaustive_search.py:366-368 | Every non-null indicator appears in the filtered enumeration at position (binary value - 1), which is in range |
| Enumeration.LastIsFull | exhbma/exhaustive_search.py:366-368 | The last entry of the filtered enumeration uses all n features |
| ModelIndex.ReversedDigitsValue | exhbma/exhaustive_search.py:375-376 | The reversed digit string of an indicator consists of binary digits and parses to the indicator's binary value |
| ModelIndex.DigitString | exhbma/exhaustive_search.py:375 | `"".join(map(str, indicator))` has one digit per feature, '1' exactly at the active features and '0' at the others |
| ModelIndex.ParseBase2 | exhbma/exhaustive_search.py:376 | On the digit strings line 375 builds (only the characters '0' and '1'), `int(s, 2)` succeeds exactly when the string is non-empty |
| ModelIndex.TransformIndicatorToModelIndex | exhbma/exhaustive_search.py:370-376 | A wrong-length indicator raises the length error before any index is computed; with no features the empty digit string raises; otherwise the index is binary value - 1, within [-1, 2^n - 2] |
| ModelIndex.IndexOfGenerated | exhbma/exhaustive_search.py:366-376 | Round trip from the model list: the indicator at position i maps back to i for every i in [0, 2^n - 2] |
| ModelIndex.NonNullIndex | exhbma/exhaustive_search.py:370-376 | A non-null indicator maps to binary value - 1, a valid position of the model list |
| ModelIndex.GeneratedAtIndex | exhbma/exhaustive_search.py:366-376 | Round trip from an indicator: the filtered enumeration holds a non-null indicator at the index computed for it |
| ModelIndex.NullIndicatorIndex | exhbma/exhaustive_search.py:375-376 | The all-zero indicator maps to -1 |
| ModelIndex.IndexInjective | exhbma/exhaustive_search.py:370-376 | Two indicators of the same positive length that map to the same result are equal |
| Selection.SelectVariables | exhbma/exhaustive_search.py:406-411 | One entry per posterior; entry j is 1 exactly when posterior j >= threshold (0.5 by default) |
| Selection.PopcountMonotone | exhbma/exhaustive_search.py:406-411 | A pointwise smaller indicator has no more active features |
| Selection.SelectMonotone | exhbma/exhaustive_search.py:406-411 | Raising the threshold only turns selected features off, so the count of selected features can only drop |
| Selection.SelectExtremes | exhbma/exhaustive_search.py:406-411 | A threshold above every posterior selects no feature; one at or below every posterior selects all |
| Selection.SelectProbabilityBounds | exhbma/exhaustive_search.py:406-411 | For posteriors in [0, 1], threshold 1.1 selects the null indicator and threshold 0.0 selects every feature |
| Coefficients.Gather | exhbma/exhaustive_search.py:145 | A boolean mask keeps one entry per active feature |
| Coefficients.Scatter | exhbma/exhaustive_search.py:303 | Writing compact coefficients at the active positions gives a full-width row |
| Coefficients.RankBound | exhbma/exhaustive_search.py:303 | Feature j's coefficient position (active features before j) is within the compact vector when feature j is active |
| Coefficients.ScatterEntry | exhbma/exhaustive_search.py:301-303 | Entry j of the row is the coefficient of rank j when feature j is active, 0 otherwise |
| Coefficients.GatherScatter | exhbma/exhaustive_search.py:301-303 | Reading the active positions of a scattered row gives back the model's coefficients in order |
| Coefficients.ScatterGather | exhbma/exhaustive_search.py:301-303 | A full-width row that is zero at the inactive features is the scatter of its own active entries |
| Coefficients.DotGatherScatter | exhbma/exhaustive_search.py:399 | The dot product of a sample's active entries with compact coefficients equals the dot product of the whole sample with the scattered row |
| Matrices.ActiveColumns | exhbma/exhaustive_search.py:145 | Selecting the active columns keeps every row, with one column per active feature |
| Matrices.ColumnSelect | exhbma/exhaustive_search.py:399 | `X[:, mask]` succeeds exactly when the mask is as long as a row; otherwise it raises the boolean-index error |
| Matrices.MatVec | exhbma/exhaustive_search.py:399 | `np.dot(X, w)` succeeds exactly when X has as many columns as w has entries, and then gives one value per row; otherwise it raises the shape error |
| Matrices.ActiveColumnsProduct | exhbma/exhaustive_search.py:301-303 | Multiplying the active columns by a model's coefficients equals multiplying the whole matrix by the model's full-width row |
| ModelPrior.FixedLogWeightIsBernoulliProduct | exhbma/exhaustive_search.py:334-345 | The count form at lines 342-344 equals the feature-by-feature Bernoulli product in the docstring at line 337 |
| ModelPrior.FixedAlphaPrior | exhbma/exhaustive_search.py:334-345 | The fixed-alpha prior depends only on the length and the number of ones, and equals the Bernoulli product over the features |
| ModelPrior.AlphaMarginalizedValue | exhbma/exhaustive_search.py:315-332 | The Beta-marginalized prior depends only on the length and the number of ones, through the Gamma-ratio formula of the docstring |
| ModelPrior.LogModelPrior | exhbma/exhaustive_search.py:147-151 | A fixed alpha gives the Bernoulli product prior; Beta parameters give the marginalized prior from the length and the number of ones |
| ModelPrior.PopcountIsMultiplicity | exhbma/exhaustive_search.py:326 | `sum(indicator)` is the number of occurrences of 1 in the indicator |
| ModelPrior.PermutationKeepsCount | exhbma/exhaustive_search.py:325-326 | Permuting an indicator keeps its length and its number of ones |
| ModelPrior.PriorDependsOnlyOnCount | exhbma/exhaustive_search.py:315-345 | Both priors give the same value for indicators with the same length and the same number of ones |
| ModelPrior.PriorPermutationInvariant | exhbma/exhaustive_search.py:315-345 | Both priors are invariant under permuting the features |
| ExhaustiveSearch.FitOverSigma | exhbma/exhaustive_search.py:224-245 | A submodel fit yields one averaged coefficient per active column |
| ExhaustiveSearch.FitModels | exhbma/exhaustive_search.py:133-161 | The models list follows the filtered enumeration, has one coefficient per active feature, and records each indicator's prior for the chosen kind of alpha parameter |
| ExhaustiveSearch.LogJoint | exhbma/exhaustive_search.py:295-297 | One log-joint value per model |
| ExhaustiveSearch.CoefficientMatrix | exhbma/exhaustive_search.py:301-303 | One full-width row per model |
| ExhaustiveSearch.Column | exhbma/exhaustive_search.py:306-307 | A column has one entry per row |
| ExhaustiveSearch.Fit | exhbma/exhaustive_search.py:124-182 | `fit` succeeds exactly when X has at least one column and `alpha_params` is a float or Beta parameters. Without columns it raises in the reductions over the empty models list (lines 250, 269); with any other `alpha_params` the assertion at line 339 fails. On success the state records n features, a models list following the enumeration with each model's prior, and n posteriors and n averaged coefficients |
| ExhaustiveSearch.CoefficientMatrixEntry | exhbma/exhaustive_search.py:301-303 | Row i of the coefficient matrix holds model i's coefficients at its active features in order and 0 elsewhere; its active entries give back those coefficients |
| ExhaustiveSearch.ParseMode | exhbma/exhaustive_search.py:379-386 | Only "select" and "full" are accepted, each naming its own mode; anything else raises the invalid-mode error |
| ExhaustiveSearch.ParseModeName | exhbma/exhaustive_search.py:41-43 | Each mode's name parses back to that mode |
| ExhaustiveSearch.PyIndex | exhbma/exhaustive_search.py:396-398 | A list subscript succeeds exactly for indices in [-len, len), and negative ones count from the end; otherwise it raises IndexError |
| ExhaustiveSearch.SelectedIndicator | exhbma/exhaustive_search.py:395 | The selected indicator has one entry per feature seen in fit |
| ExhaustiveSearch.PredictBySelect | exhbma/exhaustive_search.py:394-400 | Select prediction succeeds only when X has the fitted number of columns and some feature passes the threshold, and then gives one value per sample |
| ExhaustiveSearch.PredictByFull | exhbma/exhaustive_search.py:402-404 | Full prediction succeeds exactly when X has the fitted number of columns, then gives each sample's dot product with the averaged coefficients, and otherwise raises the shape error |
| ExhaustiveSearch.Predict | exhbma/exhaustive_search.py:378-392 | An invalid mode raises before anything else; an unfitted estimator raises; "select" (threshold 0.5 by default) and "full" dispatch to their own prediction |
| ExhaustiveSearch.ModelPriorsByCount | exhbma/exhaustive_search.py:139-151 | Every fitted model uses between 1 and n features, and models with the same number of active features have the same log-prior |
| ExhaustiveSearch.SelectedModelLookup | exhbma/exhaustive_search.py:396-398 | For a non-null selection the lookup finds, in range, the model whose indicator is the selected one |
| ExhaustiveSearch.SelectPredictionUsesSelectedModel | exhbma/exhaustive_search.py:394-400 | If some feature passes the threshold, select prediction succeeds. It multiplies the selected columns by the coefficients of the model with that indicator. That equals X times the model's row of the coefficient matrix |
| ExhaustiveSearch.NullLookupTakesFullModel | exhbma/exhaustive_search.py:396-398 | When nothing is selected, the lookup at index -1 returns a model with one coefficient per feature |
| ExhaustiveSearch.SelectPredictionNullFails | exhbma/exhaustive_search.py:394-400 | If no feature passes the threshold, the index -1 picks the full model and `np.dot` raises the shape error (0 columns against n coefficients) |
| ExhaustiveSearch.SelectPredictionErrors | exhbma/exhaustive_search.py:394-400 | If X has a column count other than the fitted one, select prediction raises at the column selection |
| ExhaustiveSearch.SelectAgreesWithFull | exhbma/exhaustive_search.py:394-404 | When the averaged coefficients equal the selected model's coefficients written at full width (its row of the coefficient matrix), select and full prediction give the same result |

## Left out

- Floating-point log-domain averaging is left out. This covers `logsumexp`, `np.exp`, and the marginal likelihood, feature posteriors, over-sigma surface and averaged coefficients (lines 247-313). The model takes these results from the uninterpreted `Numerics` functions and proves nothing about their values.
- `np.log` and `gammaln` in the priors are uninterpreted `Special` functions, so no property of the logarithm or the gamma function is used.
- `integrate_log_values_in_square`, `LinearRegression` and `exhbma/probabilities.py` are not part of this model. They are the grid fit at lines 184-245 and the sigma grid points. `FitOverSigma` keeps only the shape of their result.
- The preprocessing validators at lines 126-131 are not modelled. `Fit` assumes inputs that pass them.
- The attributes `fit` assigns before it raises are not modelled. On a matrix without columns, or with a non-float `alpha_params`, `fit` has already set `n_features_in_`, `indicators_` and `models_`; the model returns only the error.
- `log_likelihood_over_sigma` and `log_likelihood_over_sigma_` are not modelled. They are float surfaces with no discrete content.
- `tqdm`, `logging`, pydantic field validation of `ModelInfo`, and the constructor's stored hyperparameters are not modelled. They are plumbing.
- ModelIndex.ParseBase2: requires a string of binary digits, the only kind line 375 builds. What `int(s, 2)` does with signs, spaces, underscores or a `0b` prefix is not modelled.
- ModelPrior.LogModelPrior: requires `alpha_params` to be a float or Beta parameters. For any other value `Fit` returns the assertion error of line 339 before a prior is computed.
- Coefficients.Scatter: requires exactly one coefficient per active feature. numpy would also broadcast a single value over every active position. Every model `fit` builds has matching length (`FitOverSigma`, `FitModels`).
- ExhaustiveSearch.Predict: requires the fitted state to be well formed, that is, built by `fit`. Python can also reach `predict` with attributes set by hand.
- `X` is a list of rows of equal width (`Matrix.Valid`). Ragged or non-2-D arrays, and numpy's other shape rules for `np.dot`, are not modelled.
- Python `float` rounding and NaN are not modelled. A NaN posterior compares false with `>=`, which the real-valued model cannot express.

=== FILE: coefficients.dfy ===
/** Moving coefficients between the compact form of a candidate model (one
    coefficient per active feature, in feature order) and the full-width form
    (one entry per feature, 0 at inactive features). In the Python code the
    compact side is `X[:, np.array(indicator) == 1]` and `m.coefficient`; the
    full-width side is the row written by
    `np_coefficient[i, np.array(indicator) == 1] = m.coefficient`. */
module Coefficients {
  import opened Indicators

  /** Entries of `row` at the active positions of `c`, in order (a boolean mask). */
  function Gather(c: Indicator, row: seq<real>): (r: seq<real>)
    requires |row| == |c|
    ensures |r| == Popcount(c)
  {
    if |c| == 0 then []
    else if c[0] == 1 then [row[0]] + Gather(c[1..], row[1..])
    else Gather(c[1..], row[1..])
  }

  /** Full-width row: `coef` written in order at the active positions of `c`, 0 elsewhere. */
  function Scatter(c: Indicator, coef: seq<real>): (r: seq<real>)
    requires |coef| == Popcount(c)
    ensures |r| == |c|
  {
    if |c| == 0 then []
    else if c[0] == 1 then [coef[0]] + Scatter(c[1..], coef[1..])
    else [0.0] + Scatter(c[1..], coef)
  }

  /** Number of active features strictly before feature j: the position of
      feature j's coefficient in the compact vector. */
  function Rank(c: Indicator, j: nat): nat
    requires j <= |c|
  {
    Popcount(c[..j])
  }

  lemma {:induction false} RankBound(c: Indicator, j: nat)
    requires j < |c|
    ensures Rank(c, j) + c[j] <= Popcount(c)
  {
    if j > 0 {
      RankBound(c[1..], j - 1);
      assert c[..j][1..] == c[1..][..j - 1];
    }
  }

  /** Row contents: feature j holds the coefficient of rank j when active and 0 when not. */
  lemma {:induction false} ScatterEntry(c: Indicator, coef: seq<real>, j: nat)
    requires |coef| == Popcount(c) && j < |c|
    ensures Rank(c, j) + c[j] <= |coef|
    ensures Scatter(c, coef)[j] == if c[j] == 1 then coef[Rank(c, j)] else 0.0
  {
    RankBound(c, j);
    if j > 0 {
      assert c[..j][1..] == c[1..][..j - 1];
      if c[0] == 1 {
        ScatterEntry(c[1..], coef[1..], j - 1);
      } else {
        ScatterEntry(c[1..], coef, j - 1);
      }
    }
  }

  /** Reading the active positions of a scattered row gives back the compact vector. */
  lemma {:induction false} GatherScatter(c: Indicator, coef: seq<real>)
    requires |coef| == Popcount(c)
    ensures Gather(c, Scatter(c, coef)) == coef
  {
    if |c| > 0 {
      if c[0] == 1 {
        GatherScatter(c[1..], coef[1..]);
      } else {
        GatherScatter(c[1..], coef);
      }
    }
  }

  /** A full-width row that is 0 at every inactive feature is the scatter of its gather. */
  lemma {:induction false} ScatterGather(c: Indicator, row: seq<real>)
    requires |row| == |c|
    requires forall j :: 0 <= j < |c| && c[j] == 0 ==> row[j] == 0.0
    ensures Scatter(c, Gather(c, row)) == row
  {
    if |c| > 0 {
      assert forall j :: 0 <= j < |c| - 1 ==> c[1..][j] == c[j + 1] && row[1..][j] == row[j + 1];
      ScatterGather(c[1..], row[1..]);
    }
  }

  function Dot(x: seq<real>, w: seq<real>): real
    requires |x| == |w|
  {
    if |x| == 0 then 0.0 else x[0] * w[0] + Dot(x[1..], w[1..])
  }

  /** Predicting with the active columns and the compact coefficients equals
      predicting with all columns and the full-width row. */
  lemma {:induction false} DotGatherScatter(c: Indicator, x: seq<real>, coef: seq<real>)
    requires |x| == |c| && |coef| == Popcount(c)
    ensures Dot(Gather(c, x), coef) == Dot(x, Scatter(c, coef))
  {
    if |c| > 0 {
      if c[0] == 1 {
        DotGatherScatter(c[1..], x[1..], coef[1..]);
      } else {
        DotGatherScatter(c[1..], x[1..], coef);
      }
    }
  }
}

=== FILE: enumeration.dfy ===
/** The enumeration order of `_generate_indicator`: the properties the model
    index and the select prediction rely on. */
module Enumeration {
  import opened Indicators

  /** Row k of the product for n > 0: its leading coordinate is the top bit of
      k and the rest is a row of the product for n - 1. */
  lemma {:induction false} ProductRow(n: nat, k: nat)
    requires 0 < n && k < Pow2(n)
    ensures var h := Pow2(n - 1);
            Product(n)[k] == if k < h then [0] + Product(n - 1)[k] else [1] + Product(n - 1)[k - h]
  {
    var p := Product(n - 1);
    if k < Pow2(n - 1) {
      PrefixedIndex(0, p, k);
    } else {
      PrefixedIndex(1, p, k - |p|);
    }
  }

  lemma {:induction false} ProductValue(n: nat, k: nat)
    requires k < Pow2(n)
    ensures BinaryValue(Reverse(Product(n)[k])) == k
  {
    if n > 0 {
      var p := Product(n - 1);
      var h := Pow2(n - 1);
      ProductRow(n, k);
      var b: Bit := if k < h then 0 else 1;
      var j := k - b * h;
      assert Product(n)[k] == [b] + p[j];
      ReverseCons(b, p[j]);
      ProductValue(n - 1, j);
      BinaryValueSnoc(Reverse(p[j]), b);
    }
  }

  /** Entry k of the unfiltered enumeration is the binary expansion of k. */
  lemma {:induction false} GenerateEntry(n: nat, k: nat)
    requires k < Pow2(n)
    ensures GenerateIndicators(n, false)[k] == Expand(k, n)
  {
    var row := GenerateIndicators(n, false)[k];
    ReverseRowsIndex(Product(n), k);
    assert row == Reverse(Product(n)[k]);
    ProductValue(n, k);
    ValueExpand(row);
  }

  /** The filtered enumeration is the unfiltered one without its first entry,
      and that first entry is the all-zero (null) indicator. */
  lemma {:induction false} ExcludeNullDropsFirst(n: nat)
    ensures AllZero(GenerateIndicators(n, false)[0])
    ensures GenerateIndicators(n, true) == GenerateIndicators(n, false)[1..]
  {
    GenerateEntry(n, 0);
    BinaryValueZero(GenerateIndicators(n, false)[0]);
    ExpandValue(0, n);
  }

  /** Entry i of the filtered enumeration is the binary expansion of i + 1. */
  lemma {:induction false} GenerateExcludedEntry(n: nat, i: nat)
    requires i < Pow2(n) - 1
    ensures GenerateIndicators(n, true)[i] == Expand(i + 1, n)
  {
    ExcludeNullDropsFirst(n);
    GenerateEntry(n, i + 1);
  }

  /** Position i of the enumeration holds the indicator whose binary value is
      i, or i + 1 once the null indicator is dropped. */
  lemma {:induction false} GenerateValue(n: nat, excludeNull: bool, i: nat, c: Indicator)
    requires i < |GenerateIndicators(n, excludeNull)| && c == GenerateIndicators(n, excludeNull)[i]
    ensures BinaryValue(c) == if excludeNull then i + 1 else i
  {
    var k := if excludeNull then i + 1 else i;
    if excludeNull {
      GenerateExcludedEntry(n, i);
    } else {
      GenerateEntry(n, i);
    }
    ExpandValue(k, n);
  }

  /** All entries of the enumeration are distinct. */
  lemma {:induction false} GenerateDistinct(n: nat, excludeNull: bool, i: nat, j: nat)
    requires i < |GenerateIndicators(n, excludeNull)| && j < |GenerateIndicators(n, excludeNull)|
    requires i != j
    ensures GenerateIndicators(n, excludeNull)[i] != GenerateIndicators(n, excludeNull)[j]
  {
    GenerateValue(n, excludeNull, i, GenerateIndicators(n, excludeNull)[i]);
    GenerateValue(n, excludeNull, j, GenerateIndicators(n, excludeNull)[j]);
  }

  /** No filtered entry is the null indicator: every enumerated model uses
      between 1 and n features. */
  lemma {:induction false} GenerateExcludedNonNull(n: nat, i: nat)
    requires i < Pow2(n) - 1
    ensures !AllZero(GenerateIndicators(n, true)[i])
    ensures 1 <= Popcount(GenerateIndicators(n, true)[i]) <= n
  {
    var c := GenerateIndicators(n, true)[i];
    GenerateExcludedEntry(n, i);
    ExpandValue(i + 1, n);
    BinaryValueZero(c);
    PopcountZero(c);
  }

  /** Every length-n indicator appears in the unfiltered enumeration, at the
      position given by its binary value. */
  lemma {:induction false} GenerateComplete(c: Indicator)
    ensures BinaryValue(c) < |GenerateIndicators(|c|, false)|
    ensures GenerateIndicators(|c|, false)[BinaryValue(c)] == c
  {
    GenerateEntry(|c|, BinaryValue(c));
    ValueExpand(c);
  }

  /** Every non-null indicator appears in the filtered enumeration, one
      position before its binary value. */
  lemma {:induction false} GenerateExcludedAt(c: Indicator, i: int)
    requires !AllZero(c) && i == BinaryValue(c) - 1
    ensures 0 <= i < Pow2(|c|) - 1
    ensures GenerateIndicators(|c|, true)[i] == c
  {
    BinaryValueZero(c);
    GenerateExcludedEntry(|c|, i);
    ValueExpand(c);
  }

  /** The last entry of the filtered enumeration is the full model. */
  lemma {:induction false} LastIsFull(n: nat, i: nat, c: Indicator)
    requires i + 2 == Pow2(n) && c == GenerateIndicators(n, true)[i]
    ensures Popcount(c) == n
  {
    GenerateExcludedEntry(n, i);
    ExpandFullCount(n, c);
  }
}

=== FILE: exhaustive_search.dfy ===
/** `ExhaustiveLinearRegression`: the fitted state, the per-indicator fit loop,
    the coefficient matrix, and the two prediction modes. The floating-point
    integrations over the hyperparameter grid and over the models are
    uninterpreted parameters (`Numerics`); everything else is modelled exactly. */
module ExhaustiveSearch {
  import opened Indicators
  import opened Enumeration
  import opened Results
  import opened ModelIndex
  import opened Selection
  import opened Coefficients
  import opened ModelPrior
  import opened Matrices

  /** What `_fit_over_sigma_noise_and_coef` returns for one candidate model
      (the log-likelihood surface over the grid is not kept). */
  datatype SubmodelFit = SubmodelFit(logLikelihood: real, coefficient: seq<real>)

  /** `ModelInfo`: one candidate model. */
  datatype ModelInfo = ModelInfo(indicator: Indicator, logPrior: real, coefficient: seq<real>, logLikelihood: real)

  /** The numerical integrations the search delegates, as opaque functions:
      the grid-marginalized log-likelihood of the target given some columns,
      the grid-marginalized posterior-mean coefficient of one of those columns,
      and the posterior mean of a per-model weight vector under per-model
      log-joint probabilities (a signed log-sum-exp ratio). */
  datatype Numerics = Numerics(
    marginalLogLikelihood: Matrix -> real,
    marginalCoefficient: (Matrix, nat) -> real,
    posteriorMean: (seq<real>, seq<real>) -> real)

  /** `_fit_over_sigma_noise_and_coef`: one averaged coefficient per column of
      the active design matrix. */
  function FitOverSigma(xs: Matrix, num: Numerics): (fit: SubmodelFit)
    ensures |fit.coefficient| == xs.cols
  {
    SubmodelFit(
      num.marginalLogLikelihood(xs),
      seq(xs.cols, i requires 0 <= i < xs.cols => num.marginalCoefficient(xs, i)))
  }

  /** The models list of a fit on n features: one model per enumerated
      indicator, in enumeration order, each with one coefficient per active feature. */
  predicate ModelsWellFormed(n: nat, models: seq<ModelInfo>) {
    && |models| == Pow2(n) - 1
    && (forall i :: 0 <= i < |models| ==> models[i].indicator == GenerateIndicators(n, true)[i])
    && (forall i :: 0 <= i < |models| ==> |models[i].coefficient| == Popcount(models[i].indicator))
  }

  /** The attributes `fit` sets that prediction reads. */
  datatype FittedState = FittedState(
    nFeaturesIn: nat,
    models: seq<ModelInfo>,
    featurePosteriors: seq<real>,
    coef: seq<real>)
  {
    predicate Valid() {
      && nFeaturesIn > 0
      && ModelsWellFormed(nFeaturesIn, models)
      && |featurePosteriors| == nFeaturesIn
      && |coef| == nFeaturesIn
    }
  }

  /** The loop of `fit`: for every enumerated indicator, fit the submodel on
      its active columns and record its prior. */
  function FitModels(x: Matrix, params: AlphaParams, sp: Special, num: Numerics): (models: seq<ModelInfo>)
    requires x.Valid() && !params.NonFloatAlpha?
    ensures ModelsWellFormed(x.cols, models)
    ensures forall i :: 0 <= i < |models| ==> models[i].logPrior == LogModelPrior(params, models[i].indicator, sp)
  {
    var indicators := GenerateIndicators(x.cols, true);
    seq(|indicators|, i requires 0 <= i < |indicators| =>
      var c := indicators[i];
      var fit := FitOverSigma(ActiveColumns(x, c), num);
      ModelInfo(c, LogModelPrior(params, c, sp), fit.coefficient, fit.logLikelihood))
  }

  /** `log_priors[i] + log_likelihood[i]` for every model. */
  function LogJoint(models: seq<ModelInfo>): (r: seq<real>)
    ensures |r| == |models|
  {
    seq(|models|, i requires 0 <= i < |models| => models[i].logPrior + models[i].logLikelihood)
  }

  /** The coefficient matrix of `_calculate_marginal_linear_model`: row i is
      model i's coefficients written at its active features, 0 elsewhere. */
  function CoefficientMatrix(n: nat, models: seq<ModelInfo>): (rows: seq<seq<real>>)
    requires forall i :: 0 <= i < |models| ==> |models[i].indicator| == n
    requires forall i :: 0 <= i < |models| ==> |models[i].coefficient| == Popcount(models[i].indicator)
    ensures |rows| == |models|
    ensures forall i :: 0 <= i < |rows| ==> |rows[i]| == n
  {
    seq(|models|, i requires 0 <= i < |models| => Scatter(models[i].indicator, models[i].coefficient))
  }

  /** Column j of a matrix given as rows. */
  function Column(rows: seq<seq<real>>, j: nat): (col: seq<real>)
    requires forall i :: 0 <= i < |rows| ==> j < |rows[i]|
    ensures |col| == |rows|
  {
    seq(|rows|, i requires 0 <= i < |rows| => rows[i][j])
  }

  /** `fit` (lines 124-182), with the preprocessing validation left out. On a
      matrix without columns the models list is empty and the reductions over
      it (`logsumexp` at line 250, `np_indicators.shape[1]` at line 269) raise.
      Otherwise a non-float `alpha_params` fails the assertion of
      `_fixed_alpha_prior` on the first indicator. */
  function Fit(x: Matrix, params: AlphaParams, sp: Special, num: Numerics): (r: Result<FittedState>)
    requires x.Valid()
    ensures r.Ok? <==> x.cols > 0 && !params.NonFloatAlpha?
    ensures r.Err? ==> r.error == if x.cols == 0 then NoModels else AlphaNotFloat
    ensures r.Ok? ==> r.value.Valid() && r.value.nFeaturesIn == x.cols
    ensures r.Ok? ==> forall i :: 0 <= i < |r.value.models| ==>
                        r.value.models[i].logPrior == LogModelPrior(params, r.value.models[i].indicator, sp)
  {
    var n := x.cols;
    if n == 0 then Err(NoModels)
    else if params.NonFloatAlpha? then Err(AlphaNotFloat)
    else
      var models := FitModels(x, params, sp, num);
      var logJoint := LogJoint(models);
      var indicatorRows := seq(|models|, i requires 0 <= i < |models| =>
        seq(n, j requires 0 <= j < n => models[i].indicator[j] as real));
      var coefficientRows := CoefficientMatrix(n, models);
      Ok(FittedState(
        n,
        models,
        seq(n, j requires 0 <= j < n => num.posteriorMean(logJoint, Column(indicatorRows, j))),
        seq(n, j requires 0 <= j < n => num.posteriorMean(logJoint, Column(coefficientRows, j)))))
  }

  /** Row contents of the coefficient matrix, as promised by the scatter. */
  lemma {:induction false} CoefficientMatrixEntry(n: nat, models: seq<ModelInfo>, i: nat, j: nat)
    requires forall k :: 0 <= k < |models| ==> |models[k].indicator| == n
    requires forall k :: 0 <= k < |models| ==> |models[k].coefficient| == Popcount(models[k].indicator)
    requires i < |models| && j < n
    ensures var c := models[i].indicator;
            && Rank(c, j) + c[j] <= |models[i].coefficient|
            && CoefficientMatrix(n, models)[i][j]
               == if c[j] == 1 then models[i].coefficient[Rank(c, j)] else 0.0
    ensures Gather(models[i].indicator, CoefficientMatrix(n, models)[i]) == models[i].coefficient
  {
    ScatterEntry(models[i].indicator, models[i].coefficient, j);
    GatherScatter(models[i].indicator, models[i].coefficient);
  }

  // ---------------------------------------------------------------------------
  // Prediction.

  /** `PredictMode`. */
  datatype PredictMode = Select | Full

  function ModeName(m: PredictMode): string {
    match m
    case Select => "select"
    case Full => "full"
  }

  /** `PredictMode[mode]`: only the two member names are accepted. */
  function ParseMode(mode: string): (r: Result<PredictMode>)
    ensures r.Ok? <==> mode == "select" || mode == "full"
    ensures r.Ok? ==> ModeName(r.value) == mode
    ensures r.Err? ==> r.error == InvalidMode(mode)
  {
    if mode == "select" then Ok(Select)
    else if mode == "full" then Ok(Full)
    else Err(InvalidMode(mode))
  }

  lemma {:induction false} ParseModeName(m: PredictMode)
    ensures ParseMode(ModeName(m)) == Ok(m)
  {
  }

  /** Python list subscription: negative indices count from the end. */
  function PyIndex<T>(s: seq<T>, i: int): (r: Result<T>)
    ensures r.Ok? <==> -|s| <= i < |s|
    ensures r.Ok? ==> r.value == s[if i < 0 then |s| + i else i]
    ensures r.Err? ==> r.error == ListIndexOutOfRange(i, |s|)
  {
    if 0 <= i < |s| then Ok(s[i])
    else if -|s| <= i < 0 then Ok(s[|s| + i])
    else Err(ListIndexOutOfRange(i, |s|))
  }

  /** `select_variables(threshold)` on the fitted posteriors. */
  function SelectedIndicator(s: FittedState, threshold: real): (c: Indicator)
    requires s.Valid()
    ensures |c| == s.nFeaturesIn
  {
    SelectVariables(s.featurePosteriors, threshold)
  }

  /** With nothing selected the index is -1 and the lookup takes the last
      model, whose coefficients cover every feature. */
  lemma {:induction false} NullLookupTakesFullModel(s: FittedState, c: Indicator, index: int, model: ModelInfo)
    requires s.Valid() && |c| == s.nFeaturesIn
    requires TransformIndicatorToModelIndex(s.nFeaturesIn, c) == Ok(index)
    requires PyIndex(s.models, index) == Ok(model)
    ensures AllZero(c) ==> Popcount(c) == 0 && |model.coefficient| == s.nFeaturesIn
  {
    if AllZero(c) {
      var n := s.nFeaturesIn;
      NullIndicatorIndex(c);
      PopcountZero(c);
      assert Pow2(n) == 2 * Pow2(n - 1);
      var last := |s.models| - 1;
      LastIsFull(n, last, s.models[last].indicator);
    }
  }

  /** `_predict_by_select`: threshold the posteriors, look the resulting
      indicator up in the models list, multiply its active columns by that
      model's coefficients. It succeeds only when X has the fitted number of
      columns and some feature passes the threshold, and then gives one value
      per sample. */
  function PredictBySelect(s: FittedState, x: Matrix, threshold: real := 0.5): (r: Result<seq<real>>)
    requires s.Valid() && x.Valid()
    ensures r.Ok? ==> x.cols == s.nFeaturesIn && !AllZero(SelectedIndicator(s, threshold))
    ensures r.Ok? ==> |r.value| == |x.rows|
  {
    var indicator := SelectedIndicator(s, threshold);
    // Neither the transform nor the lookup can raise here: the indicator has
    // the fitted length n > 0, and every index in [-1, 2^n - 2] is a valid
    // subscript of a list of 2^n - 1 models.
    var index := TransformIndicatorToModelIndex(s.nFeaturesIn, indicator).value;
    assert Pow2(s.nFeaturesIn) == 2 * Pow2(s.nFeaturesIn - 1);
    var model := PyIndex(s.models, index).value;
    var active :- ColumnSelect(x, indicator);
    NullLookupTakesFullModel(s, indicator, index, model);
    MatVec(active, model.coefficient)
  }

  /** `_predict_by_full`: the model-averaged coefficients over all columns,
      one dot product per sample; a column count other than the fitted one
      raises. */
  function PredictByFull(s: FittedState, x: Matrix): (r: Result<seq<real>>)
    requires s.Valid() && x.Valid()
    ensures r.Ok? <==> x.cols == s.nFeaturesIn
    ensures r.Err? ==> r.error == ShapesNotAligned(x.cols, s.nFeaturesIn)
    ensures r.Ok? ==> |r.value| == |x.rows|
                      && forall k :: 0 <= k < |x.rows| ==> r.value[k] == Dot(x.rows[k], s.coef)
  {
    MatVec(x, s.coef)
  }

  /** The estimator before and after `fit`. */
  datatype Estimator = Unfit | Fitted(state: FittedState)

  /** `predict(X, mode, threshold)`: the mode is checked before the fitted
      attributes are read. */
  function Predict(e: Estimator, x: Matrix, mode: string, threshold: real := 0.5): (r: Result<seq<real>>)
    requires e.Fitted? ==> e.state.Valid()
    requires x.Valid()
    ensures mode != "select" && mode != "full" ==> r == Err(InvalidMode(mode))
    ensures (mode == "select" || mode == "full") && e.Unfit? ==> r == Err(NotFitted)
    ensures mode == "select" && e.Fitted? ==> r == PredictBySelect(e.state, x, threshold)
    ensures mode == "full" && e.Fitted? ==> r == PredictByFull(e.state, x)
  {
    var m :- ParseMode(mode);
    match e
    case Unfit => Err(NotFitted)
    case Fitted(s) =>
      match m
      case Select => PredictBySelect(s, x, threshold)
      case Full => PredictByFull(s, x)
  }

  // ---------------------------------------------------------------------------
  // Properties of the fitted models and of select prediction.

  /** In a models list as `fit` builds it (see `FitModels`), every model uses
      between 1 and n features, and two models with the same number of active
      features get the same log-prior. */
  lemma {:induction false} ModelPriorsByCount(n: nat, models: seq<ModelInfo>, params: AlphaParams, sp: Special, i: nat, j: nat)
    requires ModelsWellFormed(n, models)
    requires !params.NonFloatAlpha?
    requires forall k :: 0 <= k < |models| ==> models[k].logPrior == LogModelPrior(params, models[k].indicator, sp)
    requires i < |models| && j < |models|
    ensures 1 <= Popcount(models[i].indicator) <= n
    ensures (Popcount(models[i].indicator) == Popcount(models[j].indicator))
              ==> models[i].logPrior == models[j].logPrior
  {
    GenerateExcludedNonNull(n, i);
    if Popcount(models[i].indicator) == Popcount(models[j].indicator) {
      PriorDependsOnlyOnCount(params, models[i].indicator, models[j].indicator, sp);
    }
  }

  /** The model list holds a non-null indicator at the position the index
      transform computes for it. */
  lemma {:induction false} SelectedModelLookup(n: nat, models: seq<ModelInfo>, c: Indicator)
    requires ModelsWellFormed(n, models) && |c| == n && !AllZero(c)
    ensures var i := BinaryValue(c) - 1;
            && TransformIndicatorToModelIndex(n, c) == Ok(i)
            && 0 <= i < |models|
            && models[i].indicator == c
            && |models[i].coefficient| == Popcount(c)
  {
    NonNullIndex(c);
    GeneratedAtIndex(c, BinaryValue(c) - 1);
  }

  /** The steps of select prediction for a non-null selection of index i. */
  lemma {:induction false} SelectPredictionSteps(s: FittedState, x: Matrix, threshold: real, c: Indicator, i: int)
    requires s.Valid() && x.Valid() && x.cols == s.nFeaturesIn
    requires c == SelectedIndicator(s, threshold) && !AllZero(c) && i == BinaryValue(c) - 1
    ensures 0 <= i < |s.models|
    ensures PredictBySelect(s, x, threshold) == MatVec(ActiveColumns(x, c), s.models[i].coefficient)
  {
    NonNullIndex(c);
    assert PyIndex(s.models, i) == Ok(s.models[i]);
    assert ColumnSelect(x, c) == Ok(ActiveColumns(x, c));
  }

  /** Select prediction when at least one feature passes the threshold: it
      uses the model whose indicator is the selected one, multiplies the
      active columns by that model's coefficients, and agrees with multiplying
      all columns by that model's row of the coefficient matrix. */
  lemma {:induction false} SelectPredictionUsesSelectedModel(s: FittedState, x: Matrix, threshold: real)
    requires s.Valid() && x.Valid() && x.cols == s.nFeaturesIn
    requires !AllZero(SelectedIndicator(s, threshold))
    ensures var c := SelectedIndicator(s, threshold);
            var i := BinaryValue(c) - 1;
            && 0 <= i < |s.models|
            && s.models[i].indicator == c
            && PredictBySelect(s, x, threshold).Ok?
            && PredictBySelect(s, x, threshold) == MatVec(ActiveColumns(x, c), s.models[i].coefficient)
            && PredictBySelect(s, x, threshold) == MatVec(x, CoefficientMatrix(s.nFeaturesIn, s.models)[i])
  {
    var c := SelectedIndicator(s, threshold);
    var i := BinaryValue(c) - 1;
    SelectedModelLookup(s.nFeaturesIn, s.models, c);
    SelectPredictionSteps(s, x, threshold, c, i);
    ActiveColumnsProduct(x, c, s.models[i].coefficient);
  }

  /** When no feature passes the threshold the index is -1, which Python reads
      as the last model (the full one); its n coefficients do not fit the
      empty column selection and `np.dot` raises. */
  lemma {:induction false} SelectPredictionNullFails(s: FittedState, x: Matrix, threshold: real)
    requires s.Valid() && x.Valid() && x.cols == s.nFeaturesIn > 0
    requires AllZero(SelectedIndicator(s, threshold))
    ensures PredictBySelect(s, x, threshold) == Err(ShapesNotAligned(0, s.nFeaturesIn))
  {
    var c := SelectedIndicator(s, threshold);
    NullIndicatorIndex(c);
    assert Pow2(s.nFeaturesIn) == 2 * Pow2(s.nFeaturesIn - 1);
    var model := s.models[|s.models| - 1];
    assert PyIndex(s.models, -1) == Ok(model);
    NullLookupTakesFullModel(s, c, -1, model);
    assert ColumnSelect(x, c) == Ok(ActiveColumns(x, c));
  }

  /** A design matrix with a column count other than the fitted one fails at
      the column selection. */
  lemma {:induction false} SelectPredictionErrors(s: FittedState, x: Matrix, threshold: real)
    requires s.Valid() && x.Valid()
    ensures x.cols != s.nFeaturesIn ==>
              PredictBySelect(s, x, threshold) == Err(BooleanIndexMismatch(s.nFeaturesIn, x.cols))
  {
    var n := s.nFeaturesIn;
    var c := SelectedIndicator(s, threshold);
    if x.cols != n {
      if AllZero(c) {
        NullIndicatorIndex(c);
        assert Pow2(n) == 2 * Pow2(n - 1);
      } else {
        SelectedModelLookup(n, s.models, c);
      }
    }
  }

  /** Full and select prediction coincide whenever the averaged coefficients
      equal the selected model's coefficients written at full width (its row
      of the coefficient matrix; all posterior mass on that model). */
  lemma {:induction false} SelectAgreesWithFull(s: FittedState, x: Matrix, threshold: real)
    requires s.Valid() && x.Valid() && x.cols == s.nFeaturesIn
    requires !AllZero(SelectedIndicator(s, threshold))
    ensures var c := SelectedIndicator(s, threshold);
            var i := BinaryValue(c) - 1;
            && 0 <= i < |s.models|
            && s.models[i].indicator == c
            && (s.coef == Scatter(c, s.models[i].coefficient) ==>
                  PredictByFull(s, x) == PredictBySelect(s, x, threshold))
  {
    var c := SelectedIndicator(s, threshold);
    var i := BinaryValue(c) - 1;
    SelectedModelLookup(s.nFeaturesIn, s.models, c);
    SelectPredictionSteps(s, x, threshold, c, i);
    ActiveColumnsProduct(x, c, s.models[i].coefficient);
  }
}

=== FILE: indicators.dfy ===
/** Feature-indicator vectors and their canonical enumeration
    (`ExhaustiveLinearRegression._generate_indicator`).

    An indicator has one entry per feature, 1 when the feature is active in the
    candidate linear model and 0 when it is not. The enumeration lists every
    indicator of a given length; entry k is the binary expansion of k with the
    least-significant bit at feature 0. */
module Indicators {

  type Bit = b: int | 0 <= b <= 1

  type Indicator = seq<Bit>

  function Pow2(n: nat): (r: nat)
    ensures r >= 1
  {
    if n == 0 then 1 else 2 * Pow2(n - 1)
  }

  /** Number of active features, Python's `sum(indicator)`. */
  function Popcount(c: Indicator): (k: nat)
    ensures k <= |c|
  {
    if |c| == 0 then 0 else c[0] + Popcount(c[1..])
  }

  predicate AllZero(c: Indicator) {
    forall j :: 0 <= j < |c| ==> c[j] == 0
  }

  predicate AllOne(c: Indicator) {
    forall j :: 0 <= j < |c| ==> c[j] == 1
  }

  /** Value of an indicator read as a binary number, feature 0 least significant. */
  function BinaryValue(c: Indicator): (v: nat)
    ensures v < Pow2(|c|)
  {
    if |c| == 0 then 0 else c[0] + 2 * BinaryValue(c[1..])
  }

  /** The n lowest bits of k, least significant first. */
  function Expand(k: nat, n: nat): (c: Indicator)
    ensures |c| == n
  {
    if n == 0 then [] else [k % 2] + Expand(k / 2, n - 1)
  }

  function Reverse<T>(s: seq<T>): (r: seq<T>)
    ensures |r| == |s|
  {
    if |s| == 0 then [] else Reverse(s[1..]) + [s[0]]
  }

  lemma {:induction false} ReverseCons<T>(x: T, s: seq<T>)
    ensures Reverse([x] + s) == Reverse(s) + [x]
  {
    assert ([x] + s)[1..] == s;
  }

  /** Every row of `rows` with `b` put in front. */
  function Prefixed(b: Bit, rows: seq<Indicator>): (r: seq<Indicator>)
    ensures |r| == |rows|
  {
    if |rows| == 0 then [] else [[b] + rows[0]] + Prefixed(b, rows[1..])
  }

  lemma {:induction false} PrefixedIndex(b: Bit, rows: seq<Indicator>, i: nat)
    requires i < |rows|
    ensures Prefixed(b, rows)[i] == [b] + rows[i]
  {
    if i > 0 {
      PrefixedIndex(b, rows[1..], i - 1);
    }
  }

  /** `itertools.product([0, 1], repeat=n)`: all 0/1 tuples of length n in
      lexicographic order, the first coordinate varying slowest. */
  function Product(n: nat): (rows: seq<Indicator>)
    ensures |rows| == Pow2(n)
    ensures forall i :: 0 <= i < |rows| ==> |rows[i]| == n
  {
    if n == 0 then [[]]
    else
      var p := Product(n - 1);
      var rows := Prefixed(0, p) + Prefixed(1, p);
      assert forall i :: 0 <= i < |rows| ==> |rows[i]| == n by {
        forall i | 0 <= i < |rows| ensures |rows[i]| == n {
          if i < |p| {
            PrefixedIndex(0, p, i);
          } else {
            PrefixedIndex(1, p, i - |p|);
          }
        }
      }
      rows
  }

  /** Every row reversed. */
  function ReverseRows(rows: seq<Indicator>): (r: seq<Indicator>)
    ensures |r| == |rows|
  {
    if |rows| == 0 then [] else [Reverse(rows[0])] + ReverseRows(rows[1..])
  }

  lemma {:induction false} ReverseRowsIndex(rows: seq<Indicator>, i: nat)
    requires i < |rows|
    ensures ReverseRows(rows)[i] == Reverse(rows[i])
  {
    if i > 0 {
      ReverseRowsIndex(rows[1..], i - 1);
    }
  }

  /** `_generate_indicator(n_features, exclude_null)`: each product tuple reversed,
      the first (all-zero) entry dropped when `excludeNull` holds. */
  function GenerateIndicators(n: nat, excludeNull: bool := true): (rows: seq<Indicator>)
    ensures |rows| == if excludeNull then Pow2(n) - 1 else Pow2(n)
    ensures forall i :: 0 <= i < |rows| ==> |rows[i]| == n
  {
    var start := if excludeNull then 1 else 0;
    var reversed := ReverseRows(Product(n));
    assert forall i :: start <= i < |reversed| ==> |reversed[i]| == n by {
      forall i | start <= i < |reversed| ensures |reversed[i]| == n {
        ReverseRowsIndex(Product(n), i);
      }
    }
    reversed[start..]
  }

  // ---------------------------------------------------------------------------
  // Binary value and expansion are inverse to each other.

  lemma {:induction false} PopcountZero(c: Indicator)
    ensures Popcount(c) == 0 <==> AllZero(c)
  {
    if |c| > 0 {
      PopcountZero(c[1..]);
      assert forall j :: 1 <= j < |c| ==> c[1..][j - 1] == c[j];
    }
  }

  lemma {:induction false} PopcountFull(c: Indicator)
    ensures Popcount(c) == |c| <==> AllOne(c)
  {
    if |c| > 0 {
      PopcountFull(c[1..]);
      assert forall j :: 1 <= j < |c| ==> c[1..][j - 1] == c[j];
    }
  }

  lemma {:induction false} BinaryValueZero(c: Indicator)
    ensures BinaryValue(c) == 0 <==> AllZero(c)
  {
    if |c| > 0 {
      BinaryValueZero(c[1..]);
      assert forall j :: 1 <= j < |c| ==> c[1..][j - 1] == c[j];
    }
  }

  lemma {:induction false} ExpandValue(k: nat, n: nat)
    requires k < Pow2(n)
    ensures BinaryValue(Expand(k, n)) == k
  {
    if n > 0 {
      var c := Expand(k, n);
      assert c[1..] == Expand(k / 2, n - 1);
      ExpandValue(k / 2, n - 1);
    }
  }

  lemma {:induction false} ValueExpand(c: Indicator)
    ensures Expand(BinaryValue(c), |c|) == c
  {
    if |c| > 0 {
      var v := BinaryValue(c);
      var rest := BinaryValue(c[1..]);
      assert v % 2 == c[0] && v / 2 == rest;
      ValueExpand(c[1..]);
      assert Expand(v, |c|) == [c[0]] + c[1..];
    }
  }

  /** Two indicators of the same length with the same binary value are equal. */
  lemma {:induction false} BinaryValueInjective(c: Indicator, d: Indicator)
    requires |c| == |d| && BinaryValue(c) == BinaryValue(d)
    ensures c == d
  {
    ValueExpand(c);
    ValueExpand(d);
  }

  /** Appending a bit at the most significant end adds it times 2^|c|. */
  lemma {:induction false} BinaryValueSnoc(c: Indicator, b: Bit)
    ensures BinaryValue(c + [b]) == BinaryValue(c) + b * Pow2(|c|)
  {
    if |c| > 0 {
      assert (c + [b])[1..] == c[1..] + [b];
      BinaryValueSnoc(c[1..], b);
    }
  }

  lemma {:induction false} ExpandFull(n: nat)
    ensures AllOne(Expand(Pow2(n) - 1, n))
  {
    if n > 0 {
      var v := Pow2(n) - 1;
      assert v % 2 == 1 && v / 2 == Pow2(n - 1) - 1;
      ExpandFull(n - 1);
      assert Expand(v, n) == [1] + Expand(Pow2(n - 1) - 1, n - 1);
    }
  }

  lemma {:induction false} ExpandFullCount(n: nat, c: Indicator)
    requires c == Expand(Pow2(n) - 1, n)
    ensures Popcount(c) == n
  {
    ExpandFull(n);
    PopcountFull(c);
  }
}

=== FILE: matrices.dfy ===
/** The two numpy operations prediction needs on a design matrix: boolean
    column selection `X[:, mask]` and the matrix-vector product `np.dot`. */
module Matrices {
  import opened Indicators
  import opened Results
  import opened Coefficients

  /** A 2-D array: `rows` samples, each with `cols` feature values. */
  datatype Matrix = Matrix(rows: seq<seq<real>>, cols: nat) {
    predicate Valid() {
      forall i :: 0 <= i < |rows| ==> |rows[i]| == cols
    }
  }

  /** `X[:, mask]` for a mask as long as a row. */
  function ActiveColumns(x: Matrix, c: Indicator): (r: Matrix)
    requires x.Valid() && |c| == x.cols
    ensures r.Valid() && |r.rows| == |x.rows| && r.cols == Popcount(c)
  {
    Matrix(seq(|x.rows|, i requires 0 <= i < |x.rows| => Gather(c, x.rows[i])), Popcount(c))
  }

  /** `X[:, mask]`: numpy raises IndexError when the mask length differs from
      the number of columns. */
  function ColumnSelect(x: Matrix, c: Indicator): (r: Result<Matrix>)
    requires x.Valid()
    ensures r.Ok? <==> |c| == x.cols
    ensures r.Ok? ==> r.value.Valid() && r.value.cols == Popcount(c) && |r.value.rows| == |x.rows|
    ensures r.Err? ==> r.error == BooleanIndexMismatch(|c|, x.cols)
  {
    if |c| != x.cols then Err(BooleanIndexMismatch(|c|, x.cols)) else Ok(ActiveColumns(x, c))
  }

  /** `np.dot(X, w)` for a 2-D `X` and a 1-D `w`: one dot product per row;
      a width mismatch raises ValueError. */
  function MatVec(x: Matrix, w: seq<real>): (r: Result<seq<real>>)
    requires x.Valid()
    ensures r.Ok? <==> x.cols == |w|
    ensures r.Err? ==> r.error == ShapesNotAligned(x.cols, |w|)
    ensures r.Ok? ==> |r.value| == |x.rows|
  {
    if x.cols != |w| then Err(ShapesNotAligned(x.cols, |w|))
    else Ok(seq(|x.rows|, i requires 0 <= i < |x.rows| => Dot(x.rows[i], w)))
  }

  /** Multiplying the active columns by a compact coefficient vector gives the
      same predictions as multiplying the whole matrix by its scattered row. */
  lemma {:induction false} ActiveColumnsProduct(x: Matrix, c: Indicator, coef: seq<real>)
    requires x.Valid() && |c| == x.cols && |coef| == Popcount(c)
    ensures MatVec(ActiveColumns(x, c), coef) == MatVec(x, Scatter(c, coef))
  {
    var lhs := MatVec(ActiveColumns(x, c), coef).value;
    var rhs := MatVec(x, Scatter(c, coef)).value;
    forall i | 0 <= i < |x.rows|
      ensures lhs[i] == rhs[i]
    {
      DotGatherScatter(c, x.rows[i], coef);
    }
    assert lhs == rhs;
  }
}

=== FILE: model_index.dfy ===
/** `ExhaustiveLinearRegression._transform_indicator_to_model_index`: from an
    indicator back to its position in the filtered enumeration. The Python code
    joins the bits into a digit string, reverses it so that feature 0 becomes
    the last (least-significant) digit, parses it with `int(s, 2)` and
    subtracts one for the dropped null model. */
module ModelIndex {
  import opened Indicators
  import opened Enumeration
  import opened Results

  /** `"".join(map(str, indicator))`: one digit per feature, '1' exactly at
      the active ones. */
  function DigitString(c: Indicator): (s: string)
    ensures |s| == |c|
    ensures forall j :: 0 <= j < |s| ==> (s[j] == '1' <==> c[j] == 1) && (s[j] == '0' <==> c[j] == 0)
  {
    if |c| == 0 then "" else [if c[0] == 1 then '1' else '0'] + DigitString(c[1..])
  }

  predicate IsBinaryDigit(ch: char) {
    ch == '0' || ch == '1'
  }

  /** Every character is a binary digit (checked from the last one). */
  predicate AllBinaryDigits(s: string) {
    |s| == 0 || (IsBinaryDigit(s[|s| - 1]) && AllBinaryDigits(s[..|s| - 1]))
  }

  /** Value of a string of binary digits, most significant digit first. */
  function DigitsValue(s: string): nat
    requires AllBinaryDigits(s)
  {
    if |s| == 0 then 0
    else 2 * DigitsValue(s[..|s| - 1]) + (if s[|s| - 1] == '1' then 1 else 0)
  }

  /** `int(s, 2)` on the strings this code can build, which hold binary
      digits only: the empty string raises ValueError. */
  function ParseBase2(s: string): (r: Result<nat>)
    requires AllBinaryDigits(s)
    ensures r.Ok? <==> |s| > 0
  {
    if |s| == 0 then Err(InvalidBinaryLiteral) else Ok(DigitsValue(s))
  }

  /** The reversed digit string of an indicator parses to its binary value. */
  lemma {:induction false} ReversedDigitsValue(c: Indicator)
    ensures AllBinaryDigits(Reverse(DigitString(c)))
    ensures DigitsValue(Reverse(DigitString(c))) == BinaryValue(c)
  {
    var s := DigitString(c);
    if |c| > 0 {
      assert s[1..] == DigitString(c[1..]);
      ReversedDigitsValue(c[1..]);
      var t := Reverse(s);
      assert t == Reverse(s[1..]) + [s[0]];
      assert t[..|t| - 1] == Reverse(s[1..]);
    }
  }

  /** `_transform_indicator_to_model_index(indicator)` for an estimator fitted
      on `nFeaturesIn` features. */
  function TransformIndicatorToModelIndex(nFeaturesIn: nat, c: Indicator): (r: Result<int>)
    ensures |c| != nFeaturesIn ==> r == Err(IndicatorLengthMismatch(nFeaturesIn, |c|))
    ensures |c| == nFeaturesIn == 0 ==> r == Err(InvalidBinaryLiteral)
    ensures |c| == nFeaturesIn > 0 ==> r == Ok(BinaryValue(c) - 1)
    ensures r.Ok? ==> -1 <= r.value < Pow2(nFeaturesIn) - 1
  {
    if |c| != nFeaturesIn then Err(IndicatorLengthMismatch(nFeaturesIn, |c|))
    else
      ReversedDigitsValue(c);
      var binExpr := Reverse(DigitString(c));
      var v :- ParseBase2(binExpr);
      Ok(v - 1)
  }

  /** Round trip from the model list: the indicator at position i maps back to i. */
  lemma {:induction false} IndexOfGenerated(n: nat, i: nat)
    requires i < Pow2(n) - 1
    ensures TransformIndicatorToModelIndex(n, GenerateIndicators(n, true)[i]) == Ok(i)
  {
    GenerateExcludedEntry(n, i);
    ExpandValue(i + 1, n);
  }

  /** A non-null indicator maps to a valid position in the model list. */
  lemma {:induction false} NonNullIndex(c: Indicator)
    requires !AllZero(c)
    ensures TransformIndicatorToModelIndex(|c|, c) == Ok(BinaryValue(c) - 1)
    ensures 0 <= BinaryValue(c) - 1 < Pow2(|c|) - 1
  {
    BinaryValueZero(c);
  }

  /** Round trip from an indicator: the model list holds a non-null indicator
      at the position the transform computes for it. */
  lemma {:induction false} GeneratedAtIndex(c: Indicator, i: int)
    requires !AllZero(c) && TransformIndicatorToModelIndex(|c|, c) == Ok(i)
    ensures 0 <= i < Pow2(|c|) - 1
    ensures GenerateIndicators(|c|, true)[i] == c
  {
    NonNullIndex(c);
    GenerateExcludedAt(c, i);
  }

  /** The null indicator maps to -1, which is not a position in the model list. */
  lemma {:induction false} NullIndicatorIndex(c: Indicator)
    requires |c| > 0 && AllZero(c)
    ensures TransformIndicatorToModelIndex(|c|, c) == Ok(-1)
  {
    BinaryValueZero(c);
  }

  /** The mapping is a bijection between non-null indicators and positions. */
  lemma {:induction false} IndexInjective(c: Indicator, d: Indicator)
    requires |c| == |d| > 0
    requires TransformIndicatorToModelIndex(|c|, c) == TransformIndicatorToModelIndex(|d|, d)
    ensures c == d
  {
    BinaryValueInjective(c, d);
  }
}

=== FILE: model_prior.dfy ===
/** The model prior log p(c) of one feature indicator c
    (`_fixed_alpha_prior` and `_alpha_marginalized_value`). The natural
    logarithm and the log-gamma function are floating-point library calls in
    the Python code; here they are uninterpreted parameters, so every statement
    below holds whatever those functions are. */
module ModelPrior {
  import opened Indicators

  /** `alpha_params`: a fixed inclusion probability (a Python `float`), the
      parameters of a Beta prior over it that is marginalized analytically, or
      any other value, which `_fixed_alpha_prior` rejects with its `isinstance`
      assertion: an `int`, a `bool`, or a numpy scalar that is not a `float`
      subclass such as `np.float32`. An `np.float64` is a `float` and so is
      `FixedAlpha`. */
  datatype AlphaParams = FixedAlpha(alpha: real) | BetaAlpha(a: real, b: real) | NonFloatAlpha

  /** The transcendental functions the prior needs (`np.log`, `scipy.special.gammaln`). */
  datatype Special = Special(log: real -> real, gammaln: real -> real)

  /** Log of alpha^k (1 - alpha)^(n - k): the fixed-alpha prior of an
      indicator of length n with k active features. */
  function FixedLogWeight(n: nat, k: nat, alpha: real, sp: Special): real {
    (k as real) * sp.log(alpha) + ((n - k) as real) * sp.log(1.0 - alpha)
  }

  /** Log of Gamma(k + a) Gamma(n - k + b) / Gamma(n + a + b): the Beta prior
      over alpha integrated out, for n features of which k are active. */
  function BetaLogWeight(n: nat, k: nat, a: real, b: real, sp: Special): real {
    var nr := n as real;
    var kr := k as real;
    sp.gammaln(kr + a) + sp.gammaln(nr - kr + b) - sp.gammaln(nr + a + b)
  }

  /** Independent reference: the Bernoulli product prod alpha^c_i (1 - alpha)^(1 - c_i),
      in log form, one feature at a time. */
  function BernoulliLogProduct(alpha: real, c: Indicator, sp: Special): real {
    if |c| == 0 then 0.0
    else (if c[0] == 1 then sp.log(alpha) else sp.log(1.0 - alpha)) + BernoulliLogProduct(alpha, c[1..], sp)
  }

  /** One more feature, active: one more factor alpha. */
  lemma {:induction false} FixedLogWeightActive(n: nat, k: nat, alpha: real, sp: Special)
    requires k <= n
    ensures FixedLogWeight(n + 1, k + 1, alpha, sp) == sp.log(alpha) + FixedLogWeight(n, k, alpha, sp)
  {
    var kr := k as real;
    assert (k + 1) as real == kr + 1.0;
    assert (n + 1 - (k + 1)) as real == (n - k) as real;
    assert (kr + 1.0) * sp.log(alpha) == sp.log(alpha) + kr * sp.log(alpha);
  }

  /** One more feature, inactive: one more factor 1 - alpha. */
  lemma {:induction false} FixedLogWeightInactive(n: nat, k: nat, alpha: real, sp: Special)
    requires k <= n
    ensures FixedLogWeight(n + 1, k, alpha, sp) == sp.log(1.0 - alpha) + FixedLogWeight(n, k, alpha, sp)
  {
    var mr := (n - k) as real;
    assert (n + 1 - k) as real == mr + 1.0;
    assert (mr + 1.0) * sp.log(1.0 - alpha) == sp.log(1.0 - alpha) + mr * sp.log(1.0 - alpha);
  }

  /** The count form of the fixed-alpha prior is the per-feature product in
      the docstring of `_fixed_alpha_prior`. */
  lemma {:induction false} FixedLogWeightIsBernoulliProduct(alpha: real, c: Indicator, sp: Special)
    ensures FixedLogWeight(|c|, Popcount(c), alpha, sp) == BernoulliLogProduct(alpha, c, sp)
  {
    if |c| > 0 {
      FixedLogWeightIsBernoulliProduct(alpha, c[1..], sp);
      if c[0] == 1 {
        FixedLogWeightActive(|c| - 1, Popcount(c[1..]), alpha, sp);
      } else {
        FixedLogWeightInactive(|c| - 1, Popcount(c[1..]), alpha, sp);
      }
    }
  }

  /** Number of ones as a multiset count: Python's `sum` over a 0/1 list. */
  lemma {:induction false} PopcountIsMultiplicity(c: Indicator)
    ensures Popcount(c) == multiset(c)[1]
  {
    if |c| > 0 {
      PopcountIsMultiplicity(c[1..]);
      assert c == [c[0]] + c[1..];
    }
  }

  /** Indicators that are permutations of each other have the same length and
      the same number of active features. */
  lemma {:induction false} PermutationKeepsCount(c: Indicator, d: Indicator)
    requires multiset(c) == multiset(d)
    ensures |c| == |d| && Popcount(c) == Popcount(d)
  {
    PopcountIsMultiplicity(c);
    PopcountIsMultiplicity(d);
    assert |c| == |multiset(c)| == |multiset(d)| == |d|;
  }

  /** `_fixed_alpha_prior`: computed from `len(indicator)` and `sum(indicator)`
      only, and equal to the Bernoulli product over the features. */
  function FixedAlphaPrior(alpha: real, c: Indicator, sp: Special): (r: real)
    ensures r == FixedLogWeight(|c|, multiset(c)[1], alpha, sp)
    ensures r == BernoulliLogProduct(alpha, c, sp)
  {
    PopcountIsMultiplicity(c);
    FixedLogWeightIsBernoulliProduct(alpha, c, sp);
    FixedLogWeight(|c|, Popcount(c), alpha, sp)
  }

  /** `_alpha_marginalized_value`: computed from `len(indicator)` and
      `sum(indicator)` only. */
  function AlphaMarginalizedValue(a: real, b: real, c: Indicator, sp: Special): (r: real)
    ensures r == BetaLogWeight(|c|, multiset(c)[1], a, b, sp)
  {
    PopcountIsMultiplicity(c);
    BetaLogWeight(|c|, Popcount(c), a, b, sp)
  }

  /** The log-prior `fit` records for an indicator: dispatch on the kind of `alpha_params`. */
  function LogModelPrior(params: AlphaParams, c: Indicator, sp: Special): (r: real)
    requires !params.NonFloatAlpha?
    ensures params.FixedAlpha? ==> r == BernoulliLogProduct(params.alpha, c, sp)
    ensures params.BetaAlpha? ==> r == BetaLogWeight(|c|, multiset(c)[1], params.a, params.b, sp)
  {
    match params
    case FixedAlpha(alpha) => FixedAlphaPrior(alpha, c, sp)
    case BetaAlpha(a, b) => AlphaMarginalizedValue(a, b, c, sp)
  }

  /** The prior depends on an indicator only through its length and number of
      active features. */
  lemma {:induction false} PriorDependsOnlyOnCount(params: AlphaParams, c: Indicator, d: Indicator, sp: Special)
    requires !params.NonFloatAlpha?
    requires |c| == |d| && Popcount(c) == Popcount(d)
    ensures LogModelPrior(params, c, sp) == LogModelPrior(params, d, sp)
  {
    PopcountIsMultiplicity(c);
    PopcountIsMultiplicity(d);
    if params.FixedAlpha? {
      assert LogModelPrior(params, c, sp) == FixedAlphaPrior(params.alpha, c, sp);
      assert LogModelPrior(params, d, sp) == FixedAlphaPrior(params.alpha, d, sp);
    }
  }

  /** In particular the prior is invariant under permuting the features. */
  lemma {:induction false} PriorPermutationInvariant(params: AlphaParams, c: Indicator, d: Indicator, sp: Special)
    requires !params.NonFloatAlpha?
    requires multiset(c) == multiset(d)
    ensures LogModelPrior(params, c, sp) == LogModelPrior(params, d, sp)
  {
    PermutationKeepsCount(c, d);
    PriorDependsOnlyOnCount(params, c, d, sp);
  }
}

=== FILE: results.dfy ===
/** Failure-compatible result type for the operations of the exhaustive search
    where the Python code raises an exception on some inputs. */
module Results {

  /** The exceptions the modelled code can raise, one constructor per cause. */
  datatype Error =
    | IndicatorLengthMismatch(expected: nat, actual: nat) // ValueError in the index transform
    | InvalidBinaryLiteral                                // ValueError from int(s, 2)
    | ListIndexOutOfRange(index: int, length: nat)        // IndexError from a Python list subscript
    | BooleanIndexMismatch(maskLength: nat, columns: nat) // IndexError from X[:, mask]
    | ShapesNotAligned(columns: nat, coefficients: nat)   // ValueError from np.dot
    | InvalidMode(mode: string)                           // ValueError from predict
    | NotFitted                                           // AttributeError before fit
    | AlphaNotFloat                                       // AssertionError in _fixed_alpha_prior
    | NoModels                                            // fit on X without columns: the reductions over the empty models list raise

  datatype Result<+T> = Ok(value: T) | Err(error: Error) {

    predicate IsFailure() {
      Err?
    }

    function PropagateFailure<U>(): Result<U>
      requires Err?
    {
      Err(error)
    }

    function Extract(): T
      requires Ok?
    {
      value
    }
  }
}

=== FILE: selection.dfy ===
/** `ExhaustiveLinearRegression.select_variables`: thresholding the per-feature
    posterior inclusion probabilities into an indicator. */
module Selection {
  import opened Indicators

  /** Entry j is 1 exactly when `posteriors[j] >= threshold` (inclusive). */
  function SelectVariables(posteriors: seq<real>, threshold: real := 0.5): (c: Indicator)
    ensures |c| == |posteriors|
    ensures forall j :: 0 <= j < |c| ==> (c[j] == 1 <==> posteriors[j] >= threshold)
  {
    if |posteriors| == 0 then []
    else [if posteriors[0] >= threshold then 1 else 0] + SelectVariables(posteriors[1..], threshold)
  }

  /** Pointwise order on indicators: every feature active in `c` is active in `d`. */
  predicate Subsumed(c: Indicator, d: Indicator) {
    |c| == |d| && forall j :: 0 <= j < |c| ==> c[j] <= d[j]
  }

  lemma {:induction false} PopcountMonotone(c: Indicator, d: Indicator)
    requires Subsumed(c, d)
    ensures Popcount(c) <= Popcount(d)
  {
    if |c| > 0 {
      assert Subsumed(c[1..], d[1..]) by {
        forall j | 0 <= j < |c| - 1 ensures c[1..][j] <= d[1..][j] {
          assert c[1..][j] == c[j + 1] && d[1..][j] == d[j + 1];
        }
      }
      PopcountMonotone(c[1..], d[1..]);
    }
  }

  /** Raising the threshold can only turn selected features off. */
  lemma {:induction false} SelectMonotone(posteriors: seq<real>, low: real, high: real)
    requires low <= high
    ensures Subsumed(SelectVariables(posteriors, high), SelectVariables(posteriors, low))
    ensures Popcount(SelectVariables(posteriors, high)) <= Popcount(SelectVariables(posteriors, low))
  {
    PopcountMonotone(SelectVariables(posteriors, high), SelectVariables(posteriors, low));
  }

  /** A threshold above every posterior selects the null indicator; a threshold
      at or below every posterior selects every feature. */
  lemma {:induction false} SelectExtremes(posteriors: seq<real>, threshold: real)
    ensures (forall j :: 0 <= j < |posteriors| ==> posteriors[j] < threshold)
              ==> Popcount(SelectVariables(posteriors, threshold)) == 0
    ensures (forall j :: 0 <= j < |posteriors| ==> posteriors[j] >= threshold)
              ==> Popcount(SelectVariables(posteriors, threshold)) == |posteriors|
  {
    PopcountZero(SelectVariables(posteriors, threshold));
    PopcountFull(SelectVariables(posteriors, threshold));
  }

  /** Posterior probabilities lie in [0, 1], so threshold 1.1 selects nothing
      and threshold 0.0 selects everything. */
  lemma {:induction false} SelectProbabilityBounds(posteriors: seq<real>)
    requires forall j :: 0 <= j < |posteriors| ==> 0.0 <= posteriors[j] <= 1.0
    ensures AllZero(SelectVariables(posteriors, 1.1))
    ensures AllOne(SelectVariables(posteriors, 0.0))
  {
  }
}
